=== FILE: README.md ===
# IEEE 802.11 frame dispatch in pypacker — a Dafny model

This project models the core of pypacker's IEEE 802.11 layer
(`pypacker/layer12/ieee80211.py`). It covers five parts.

- **Frame control word.** The 16-bit `framectl` field is read big-endian from the first two
  bytes of a frame. Eleven mask-and-shift properties read and write it: version, type,
  subtype, to_ds, from_ds, more_frag, retry, pwr_mgt, more_data, protected and order.
- **Dispatch key.** `_dissect` picks the handler for the frame body using the key
  `TYPE_FACTORS[type] + subtype + 128·protected`, where `TYPE_FACTORS = [16, 32, 64]`.
  It hands the handler everything after the first four bytes.
- **Handler registry.** At module load, `decoder_dict_complete` is built from the three
  per-type tables: management (`m_decoder`), control (`c_decoder`) and data (`d_decoder`).
  Every data entry whose class is `Dataframe` or `DataframeQos` also gets a secured twin
  at key + 128.
- **Fixed body layouts.** Beacon, ProbeReq, ProbeResp, AssocReq and AssocResp start their
  information elements at byte 32, 20, 32, 24 and 26 of their body. The model states
  these offsets and proves that each one equals the size of that class's fixed header.
- **Information-element parser.** `_unpack_ies` walks the buffer `id, length,
  payload…`. For each element it picks a class from `ie_decoder`, falling back to the
  generic `IE`.

The modules follow that structure:

- `FrameControl` (`frame_control.dfy`): the control word on `bv32`, with masks, getters,
  setters and a `Fields` record view.
- `Dispatch` (`dispatch.dfy`): the key and its inverse.
- `Bodies` (`bodies.dfy`): the body classes' fixed layouts.
- `Registry` (`registry.dfy`): the tables, the construction loop and an independent
  specification of the resulting map.
- `InformationElements` (`information_elements.dfy`): the parser. It comes as a
  recursive reference `Parse` and as the loop `UnpackIes`.
- `Frame` (`frame.dfy`): `_dissect`, glued from the parts above.
- `Wrappers` and `Bytes` are small helpers. `Bytes.Byte` is a Python `bytes` element, an
  integer 0..255.

Python exceptions become `Failure` values, not preconditions:

- A frame shorter than 2 bytes cannot fill `struct.unpack(">H", buf[0:2])`.
- Frame type 3 makes `TYPE_FACTORS[3]` raise `IndexError`.
- A trailing identifier with no length byte makes `buf[off + 1]` raise `IndexError`.

## Model

| member | source | states |
|---|---|---|
| FrameControl.MasksPartitionWord | pypacker/layer12/ieee80211.py:57-68 | the eleven frame-control masks are pairwise disjoint and together cover exactly the low 16 bits |
| FrameControl.GetVersion | pypacker/layer12/ieee80211.py:94-95 | the protocol version is a 2-bit value which, shifted back left by 8, equals exactly the word's bits under mask 0x0300 |
| FrameControl.GetType | pypacker/layer12/ieee80211.py:100-101 | the frame type is a 2-bit value which, shifted back left by 10, equals exactly the word's bits under mask 0x0c00 |
| FrameControl.GetSubtype | pypacker/layer12/ieee80211.py:106-107 | the subtype is a 4-bit value which, shifted back left by 12, equals exactly the word's bits under mask 0xf000 |
| FrameControl.GetToDs | pypacker/layer12/ieee80211.py:112-113 | the to_ds flag is a 1-bit value which, shifted back left by 0, equals exactly the word's bits under mask 0x0001 |
| FrameControl.GetFromDs | pypacker/layer12/ieee80211.py:118-119 | the from_ds flag is a 1-bit value which, shifted back left by 1, equals exactly the word's bits under mask 0x0002 |
| FrameControl.GetMoreFrag | pypacker/layer12/ieee80211.py:124-125 | the more_frag flag is a 1-bit value which, shifted back left by 2, equals exactly the word's bits under mask 0x0004 |
| FrameControl.GetRetry | pypacker/layer12/ieee80211.py:130-131 | the retry flag is a 1-bit value which, shifted back left by 3, equals exactly the word's bits under mask 0x0008 |
| FrameControl.GetPwrMgt | pypacker/layer12/ieee80211.py:136-137 | the pwr_mgt flag is a 1-bit value which, shifted back left by 4, equals exactly the word's bits under mask 0x0010 |
| FrameControl.GetMoreData | pypacker/layer12/ieee80211.py:142-143 | the more_data flag is a 1-bit value which, shifted back left by 5, equals exactly the word's bits under mask 0x0020 |
| FrameControl.GetProtected | pypacker/layer12/ieee80211.py:148-149 | the protected flag is a 1-bit value which, shifted back left by 6, equals exactly the word's bits under mask 0x0040 |
| FrameControl.GetOrder | pypacker/layer12/ieee80211.py:154-155 | the order flag is a 1-bit value which, shifted back left by 7, equals exactly the word's bits under mask 0x0080 |
| FrameControl.Decode | pypacker/layer12/ieee80211.py:57-79 | splitting a word into its eleven fields plus the bits from bit 16 up yields fields that each fit their width |
| FrameControl.DecodeEncode | pypacker/layer12/ieee80211.py:57-79 | reassembling fields that fit and splitting again gives the same fields back |
| FrameControl.EncodeDecode | pypacker/layer12/ieee80211.py:57-79 | splitting a word into fields and reassembling them gives the same word: the fields lose no bit |
| FrameControl.SetVersion | pypacker/layer12/ieee80211.py:97-98 | setting a version that fits changes the version to that value and leaves every other field and the upper bits unchanged |
| FrameControl.SetType | pypacker/layer12/ieee80211.py:103-104 | setting a type that fits changes only the type field |
| FrameControl.SetSubtype | pypacker/layer12/ieee80211.py:109-110 | setting a subtype that fits changes only the subtype field |
| FrameControl.SetToDs | pypacker/layer12/ieee80211.py:115-116 | setting a to_ds bit changes only to_ds |
| FrameControl.SetFromDs | pypacker/layer12/ieee80211.py:121-122 | setting a from_ds bit changes only from_ds |
| FrameControl.SetMoreFrag | pypacker/layer12/ieee80211.py:127-128 | setting a more_frag bit changes only more_frag |
| FrameControl.SetRetry | pypacker/layer12/ieee80211.py:133-134 | setting a retry bit changes only retry |
| FrameControl.SetPwrMgt | pypacker/layer12/ieee80211.py:139-140 | setting a pwr_mgt bit changes only pwr_mgt |
| FrameControl.SetMoreData | pypacker/layer12/ieee80211.py:145-146 | setting a more_data bit changes only more_data |
| FrameControl.SetProtected | pypacker/layer12/ieee80211.py:151-152 | setting a protected bit changes only protected |
| FrameControl.SetOrder | pypacker/layer12/ieee80211.py:157-158 | setting an order bit changes only order |
| FrameControl.SetGetIdentity | pypacker/layer12/ieee80211.py:94-158 | writing back the value just read through any of the eleven properties leaves framectl unchanged |
| FrameControl.SixteenBitWord | pypacker/layer12/ieee80211.py:87-92 | a control word fits the 16-bit `H` header field exactly when it has no bits above the eleven fields |
| FrameControl.SetterKeepsSixteenBits | pypacker/layer12/ieee80211.py:87-92 | a new word that keeps a 16-bit word's bits above bit 15, as every setter law does, is itself a 16-bit word |
| FrameControl.SettersKeepSixteenBits | pypacker/layer12/ieee80211.py:97-158 | every one of the eleven setters, given a value that fits its field, keeps a 16-bit frame-control word within 16 bits |
| FrameControl.FromBytes | pypacker/layer12/ieee80211.py:173 | the big-endian word built from the first two bytes fits in 16 bits; version, type and subtype are bits 0-1, 2-3 and 4-7 of the first byte, and to_ds through order are bits 0 to 7 of the second byte |
| Dispatch.KeyOf | pypacker/layer12/ieee80211.py:174-182 | for a subtype below 16, the key is at least 128 exactly when the frame is protected, and modulo 128 it lies in the 16-wide window that starts at the type's factor |
| Dispatch.KeyDecode | pypacker/layer12/ieee80211.py:83-84 | a key that decodes yields a valid type and a 4-bit subtype whose key is that key again |
| Dispatch.KeyRoundTrip | pypacker/layer12/ieee80211.py:83-84 | every (type, subtype, protected) triple with type < 3 and subtype < 16 is recovered from its key |
| Dispatch.KeyInjective | pypacker/layer12/ieee80211.py:174-182 | two different frames of types 0..2 never share a dispatch key |
| Dispatch.FrameKey | pypacker/layer12/ieee80211.py:172-182 | a frame of type 3 has no key (the source raises); every other frame's key decodes to its type, subtype and protected bit |
| Dispatch.FrameKeyExamples | pypacker/layer12/ieee80211.py:172-182 | a beacon control word 0x8000 dispatches on key 24; a protected QoS data word 0xC840 dispatches on key 204 |
| Bodies.BodyLayout | pypacker/layer12/ieee80211.py:188-440 | no contract: the `__hdr__` field widths of each body class, with `6s` as 6, `H` as 2 and `Q` as 8 bytes; characterised by Bodies.ElementsStartLayout |
| Bodies.ElementsStart | pypacker/layer12/ieee80211.py:188-261 | exactly Beacon, ProbeReq, ProbeResp, AssocReq and AssocResp parse information elements after their fixed fields |
| Bodies.ElementsStartLayout | pypacker/layer12/ieee80211.py:188-261 | each of the offsets 32, 20, 32, 24 and 26 equals the byte size of that class's fixed header fields |
| Bodies.BodyOffset | pypacker/layer12/ieee80211.py:87-92 | the body handed to the handler starts after the 4-byte framectl and duration header |
| Registry.Lookup | pypacker/layer12/ieee80211.py:182 | no contract: the handler lookup by key, `None` for an unregistered key; characterised by Registry.BuildSpec and Registry.DecoderDictAbsent |
| Registry.Find | pypacker/layer12/ieee80211.py:318-330 | no contract: indexing one decoder dict by subtype; characterised by Registry.FindSpec and Registry.FindNone |
| Registry.Store | pypacker/layer12/ieee80211.py:567-574 | no contract: one pass of the inner loop, writing the entry and, for a plain data class, its secured twin; characterised by Registry.StoreSpec |
| Registry.StoreTable | pypacker/layer12/ieee80211.py:565-574 | no contract: the inner loop over one dict; characterised by Registry.StoreTableSpec |
| Registry.Build | pypacker/layer12/ieee80211.py:561-574 | no contract: the outer loop over `dicts` from an empty dict; characterised by Registry.BuildSpec and Registry.OrderIndependent |
| Registry.SecuredVariant | pypacker/layer12/ieee80211.py:569-574 | exactly Dataframe and DataframeQos have a secured twin, DataframeSecured and DataframeQosSecured respectively |
| Registry.FindNone | pypacker/layer12/ieee80211.py:318-330 | a table has no entry for a subtype exactly when no entry carries that subtype |
| Registry.FindSpec | pypacker/layer12/ieee80211.py:318-330 | in a table with distinct subtypes, looking up an entry's subtype yields its class exactly when the entry is in the table |
| Registry.StoreTableSpec | pypacker/layer12/ieee80211.py:565-574 | storing one table overrides exactly the keys of the subtypes it lists, plus the +128 twin of each Dataframe or DataframeQos data entry, and keeps every other key, including unlisted subtypes of the same window |
| Registry.BuildSpec | pypacker/layer12/ieee80211.py:561-574 | the registry the loop builds maps every key to exactly what an independent per-key definition says: the table entry for its type and subtype, or its secured twin for protected data keys |
| Registry.EntryStored | pypacker/layer12/ieee80211.py:564-567 | every table entry is registered under its type factor plus subtype |
| Registry.SecuredTwin | pypacker/layer12/ieee80211.py:569-574 | every Dataframe or DataframeQos data entry is also registered at key + 128 with its secured class |
| Registry.RegisteredKeys | pypacker/layer12/ieee80211.py:561-574 | every registered key decodes to a valid type and subtype, and every key at or above 128 is a data key with a secured class |
| Registry.FindReordered | pypacker/layer12/ieee80211.py:318-330 | in tables with distinct subtypes, the entry order does not change what a subtype looks up to |
| Registry.OrderIndependent | pypacker/layer12/ieee80211.py:564-574 | tables holding the same entries in a different order build the same registry |
| Registry.ManagementTableWellFormed | pypacker/layer12/ieee80211.py:318-330 | the management table has subtypes below 16 and no subtype twice |
| Registry.ControlTableWellFormed | pypacker/layer12/ieee80211.py:378-384 | the control table has subtypes below 16 and no subtype twice |
| Registry.DataTableWellFormed | pypacker/layer12/ieee80211.py:441-456 | the data table has subtypes below 16 and no subtype twice |
| Registry.TablesWellFormed | pypacker/layer12/ieee80211.py:561 | the three tables, indexed by type, are all well formed and there is one per type factor |
| Registry.DecoderDict | pypacker/layer12/ieee80211.py:561-576 | no contract: `decoder_dict_complete`, defined as `Build(Tables)`; characterised by Registry.BuildSpec, DecoderDictPresent and DecoderDictAbsent |
| Registry.DecoderDictPresent | pypacker/layer12/ieee80211.py:318-574 | the registry maps key 24 to Beacon and key 204 to DataframeQosSecured |
| Registry.UnlistedKey | pypacker/layer12/ieee80211.py:561-574 | a key whose subtype is missing from its type's table has no handler |
| Registry.UnlistedSubtype | pypacker/layer12/ieee80211.py:561-574 | a type and subtype missing from the tables has no handler, protected or not |
| Registry.DecoderDictAbsent | pypacker/layer12/ieee80211.py:561-574 | key 25 (ATIM, management subtype 9), keys 77 and 79 (data subtypes 13 and 15) and key 152 (a protected beacon) have no handler |
| InformationElements.SchemaFor | pypacker/layer12/ieee80211.py:545-556 | identifiers 2..6 select FH, DS, CF, TIM and IBSS in that order; every other identifier falls back to the generic IE |
| InformationElements.Parse | pypacker/layer12/ieee80211.py:461-482 | no contract: the reference walk of `_unpack_ies` over what is left of the buffer; characterised by InformationElements.UnpackIes, ParseTiles and ParseEncoded |
| InformationElements.ParseTiles | pypacker/layer12/ieee80211.py:461-482 | when parsing succeeds, the elements concatenated give back the whole buffer |
| InformationElements.ParseTagged | pypacker/layer12/ieee80211.py:461-482 | every parsed element starts with its identifier and length byte and carries the class its identifier selects |
| InformationElements.ParseCompleteButLast | pypacker/layer12/ieee80211.py:461-482 | every element but the last is exactly 2 + length bytes long |
| InformationElements.ParseAt | pypacker/layer12/ieee80211.py:468-480 | parsing from an offset yields the element there followed by the parse from the next offset 2 + length further on |
| InformationElements.LoopStep | pypacker/layer12/ieee80211.py:468-480 | one loop pass keeps the relation between the elements gathered so far and the reference parse |
| InformationElements.StopAfter | pypacker/layer12/ieee80211.py:468-480 | the loop stops exactly on the end of the buffer when its last element is complete |
| InformationElements.UnpackIes | pypacker/layer12/ieee80211.py:461-482 | the loop yields exactly the reference parse; it fails only on a lone trailing identifier, and a success ends exactly at the buffer's end when the last element is complete |
| InformationElements.ParseHead | pypacker/layer12/ieee80211.py:468-480 | an encoded element followed by anything parses to that element first |
| InformationElements.ParseEncodedPrefix | pypacker/layer12/ieee80211.py:461-482 | parsing encoded elements followed by any tail yields those elements followed by the tail's parse |
| InformationElements.ElementsOfShape | pypacker/layer12/ieee80211.py:468-480 | the expected element list has one element per laid-out element, the i-th being its id, length octet and whole payload, and each one complete |
| InformationElements.ParseEncoded | pypacker/layer12/ieee80211.py:461-482 | parsing the encoding of well-formed elements gives those elements back (round trip): exactly one element per laid-out element, the i-th holding the i-th id, its length octet and its whole payload, each complete |
| InformationElements.TrailingIdFails | pypacker/layer12/ieee80211.py:468-476 | a buffer that ends in an identifier with no length byte fails |
| InformationElements.OverrunKeptShort | pypacker/layer12/ieee80211.py:476-479 | a last element whose length overruns the buffer is still emitted, cut short at the buffer's end and not complete |
| InformationElements.ParseExample | pypacker/layer12/ieee80211.py:461-482 | an SSID element followed by a rates element parses into two generic IE elements |
| Frame.Dissect | pypacker/layer12/ieee80211.py:172-182 | fails on fewer than 2 bytes or on type 3; otherwise dispatches on the key of the big-endian control word, to the registry's handler, with the body after the 4-byte header |
| Frame.BodyElements | pypacker/layer12/ieee80211.py:204-261 | exactly the element-carrying classes parse their body from their fixed-header size on |
| Frame.BeaconExample | pypacker/layer12/ieee80211.py:172-205 | a beacon frame dissects to control word 0x8000, key 24, the registry's handler for 24 and the body after the first four bytes |
| Frame.BeaconDispatched | pypacker/layer12/ieee80211.py:172-205 | against the built registry, the beacon frame dissects to control word 0x8000, key 24, handler Beacon and the body after the first four bytes |
| Frame.SecuredQosExample | pypacker/layer12/ieee80211.py:172-182 | a protected QoS data frame with control word 0xC840 dissects to key 204 and the registry's handler for 204, with an empty body |
| Frame.SecuredQosDispatched | pypacker/layer12/ieee80211.py:172-182 | against the built registry, that frame reaches the secured twin DataframeQosSecured |
| Frame.BeaconElementsExample | pypacker/layer12/ieee80211.py:204-205 | a beacon body parses its SSID element after the 32 fixed bytes |
| Frame.ReservedTypeExample | pypacker/layer12/ieee80211.py:172-182 | a control word of type 3 is rejected |

## Left out

- The `pypacker.Packet` base class is not part of this model. Left out with it: header
  packing and unpacking by `struct`, the lazy `_parse_handler`, `TriggerList` laziness
  and `bin()`. The registry is a plain map from key to class name. `Dissect` returns the
  chosen class and body; it does not instantiate it.
- Field decoding inside the body classes and inside the element classes (FH, DS, CF, TIM,
  IBSS) is left out. Only each class's field widths are modelled, so the element offsets
  can be checked. MAC-address string properties are left out.
- Disassoc, ReassocReq, Auth, Deauth and the control and data classes have no
  information-element list. They appear only as registry entries with their field
  widths.
- The frame-type and subtype constants (`M_BEACON`, `D_QOS_DATA`, …) and the `TO_DS_FLAG`
  style constants are not modelled by name. The tables use their numeric values.
- Logging is left out. All `logger.debug` calls in the core are commented out.
- FrameControl.SetVersion and the other ten setters: the law is stated only for values
  that fit the field. Python's unbounded `framectl` would take a wider value and spill
  it into neighbouring fields. The model computes the same bits within 32 bits and
  truncates beyond them.
- Frame.Dissect: a 2- or 3-byte frame is accepted with an empty body. The source reads
  only `buf[0:2]` (:173) and slices `buf[4:]` (:182). Any length check in the packet
  base class is not part of this model.
- Frame.Dissect: type 3 is a `Failure(ReservedType)`, because `TYPE_FACTORS[3]` (:182)
  raises `IndexError`.
- InformationElements.UnpackIes: a last element whose length overruns the buffer is
  emitted short, as the slice at :478 does. See `OverrunKeptShort`.
- Frame.BeaconExample: stated for any registry, not only the built one, to keep the proof
  small. `Frame.BeaconDispatched` states the same frame against the built registry.

=== FILE: bodies.dfy ===
/** The frame-body decoders the dispatch key selects, and the fixed-width
    headers they start with (pypacker/layer12/ieee80211.py, the nested
    `Beacon` ... `DataframeQosSecured` classes).

    A body is only ever treated here as its schema name plus the list of
    fixed-width fields in front of it; the field values themselves are left
    to the packet base class, which is not part of this model. */
module Bodies {
  import opened Wrappers

  /** One constructor per body class. `ProbeResp` subclasses `Beacon` and
      shares its layout. */
  datatype Schema =
    | Beacon | ProbeReq | ProbeResp | AssocReq | AssocResp
    | Disassoc | ReassocReq | Auth | Deauth
    | RTS | CTS | ACK | BlockAckReq | BlockAck
    | Dataframe | DataframeQos | DataframeSecured | DataframeQosSecured

  /** The `struct` format codes the fixed headers use. */
  datatype FieldFormat = Mac | U16 | U64

  /** Bytes one field occupies: `6s`, `H`, `Q`. */
  function Width(f: FieldFormat): nat
  {
    match f
    case Mac => 6
    case U16 => 2
    case U64 => 8
  }

  /** Bytes a run of fixed-width fields occupies. */
  function HeaderSize(layout: seq<FieldFormat>): nat
  {
    if |layout| == 0 then 0 else Width(layout[0]) + HeaderSize(layout[1..])
  }

  /** `IEEE80211.__hdr__`: `framectl` and `duration`, both `H`. */
  const FrameHeaderLayout: seq<FieldFormat> := [U16, U16]

  /** The fixed fields of each body's `__hdr__`, in order, leaving out the
      trailing `params` list of information elements. */
  function BodyLayout(s: Schema): seq<FieldFormat>
  {
    match s
    // dst, src1, src2, frag_seq, ts, interval, capa
    case Beacon | ProbeResp => [Mac, Mac, Mac, U16, U64, U16, U16]
    // dst, src1, src2, frag_seq
    case ProbeReq | Dataframe => [Mac, Mac, Mac, U16]
    // dst, src1, src2, frag_seq, capa, interval
    case AssocReq => [Mac, Mac, Mac, U16, U16, U16]
    // dst, src1, src2, frag_seq, capa, status, aid
    case AssocResp => [Mac, Mac, Mac, U16, U16, U16, U16]
    // dst, src1, src2, frag_seq, reason
    case Disassoc | Deauth => [Mac, Mac, Mac, U16, U16]
    // dst, src1, src2, frag_seq, capa, interval, current_ap
    case ReassocReq => [Mac, Mac, Mac, U16, U16, U16, Mac]
    // dst, src1, src2, frag_seq, algo, auth_seq
    case Auth => [Mac, Mac, Mac, U16, U16, U16]
    // dst, src
    case RTS => [Mac, Mac]
    // dst
    case CTS | ACK => [Mac]
    // dst, src, reqctrl, seq
    case BlockAckReq => [Mac, Mac, U16, U16]
    // dst, src, reqctrl, seq, bitmap
    case BlockAck => [Mac, Mac, U16, U16, U64]
    // dst, src1, src2, frag_seq, qos_ctrl
    case DataframeQos => [Mac, Mac, Mac, U16, U16]
    // dst, src1, src2, frag_seq, sec_param
    case DataframeSecured => [Mac, Mac, Mac, U16, U64]
    // dst, src1, src2, frag_seq, qos_ctrl, sec_param
    case DataframeQosSecured => [Mac, Mac, Mac, U16, U16, U64]
  }

  /** Whether the body class ends in a `params` list of information
      elements. */
  predicate CarriesElements(s: Schema)
  {
    s.Beacon? || s.ProbeResp? || s.ProbeReq? || s.AssocReq? || s.AssocResp?
  }

  /** Where the body's `_dissect` starts the information-element list:
      the literal slice offsets `buf[32:]`, `buf[20:]`, `buf[24:]` and
      `buf[26:]`; only the five classes with a `params` list have one. */
  function ElementsStart(s: Schema): (r: Option<nat>)
    ensures r.Some? <==> CarriesElements(s)
  {
    match s
    case Beacon | ProbeResp => Some(32)
    case ProbeReq => Some(20)
    case AssocReq => Some(24)
    case AssocResp => Some(26)
    case _ => None
  }

  /** Each hard-coded start offset is exactly the width of the fixed fields
      declared in front of `params`. */
  lemma ElementsStartLayout(s: Schema)
    requires CarriesElements(s)
    ensures ElementsStart(s) == Some(HeaderSize(BodyLayout(s)))
  {
    match s
    case Beacon | ProbeResp => assert HeaderSize([Mac, Mac, Mac, U16, U64, U16, U16]) == 32;
    case ProbeReq => assert HeaderSize([Mac, Mac, Mac, U16]) == 20;
    case AssocReq => assert HeaderSize([Mac, Mac, Mac, U16, U16, U16]) == 24;
    case AssocResp => assert HeaderSize([Mac, Mac, Mac, U16, U16, U16, U16]) == 26;
  }

  /** The outer `_dissect` passes `buf[4:]` on: 4 is the width of
      `framectl` and `duration`. */
  function BodyOffset(): (n: nat)
    ensures n == HeaderSize(FrameHeaderLayout)
  {
    4
  }
}

=== FILE: bytes.dfy ===
/** Byte buffers as the decoder sees them: a Python `bytes` object indexes
    to integers 0-255. Buffers, lengths and slices are arithmetic on these
    integers; only the frame-control read needs the bit-level view, which
    is `FrameControl.Octet` (a `bv8`), reached by `b as Octet`. Keeping
    the buffers integral keeps the parser's proofs free of bit-vector
    reasoning. */
module Bytes {

  newtype Byte = b: int | 0 <= b < 256

  /** The smaller of two integers, as Python's `min` on two lengths or
      offsets. */
  function Min(a: int, b: int): int
  {
    if a <= b then a else b
  }
}

=== FILE: dispatch.dfy ===
/** The dispatch key that selects a frame-body decoder
    (pypacker/layer12/ieee80211.py, `TYPE_FACTORS` and `IEEE80211._dissect`).

    The key is `TYPE_FACTORS[type] + subtype`, plus `128` when the protected
    flag is set. The factors are 16 apart or more and every subtype is below
    16, so the three types occupy the disjoint ranges 16-31, 32-47 and 64-79,
    and their protected twins the same ranges shifted by 128. */
module Dispatch {
  import opened Wrappers
  import opened FrameControl

  /** `TYPE_FACTORS`, indexed by the type field: management, control, data. */
  const TypeFactors: seq<nat> := [16, 32, 64]

  /** `TYPE_FACTOR_PROTECTED` */
  const ProtectedFactor: nat := 128

  const ManagementType: nat := 0
  const ControlType: nat := 1
  const DataType: nat := 2

  /** The three fields a dispatch key is made of. */
  datatype KeyParts = KeyParts(ftype: nat, subtype: nat, protected: bool)

  /** The key expression of `_dissect`. With a 4-bit subtype the
      protected flag alone decides whether the key reaches 128, and the key
      lies in the 16-wide window of its type. */
  function KeyOf(ftype: nat, subtype: nat, protected: bool): (k: nat)
    requires ftype < |TypeFactors|
    ensures subtype < 16 ==> (k >= ProtectedFactor <==> protected)
    ensures subtype < 16 ==> TypeFactors[ftype] <= k % ProtectedFactor < TypeFactors[ftype] + 16
  {
    TypeFactors[ftype] + subtype + (if protected then ProtectedFactor else 0)
  }

  /** Splits a key back into its parts; `None` for an integer that no
      (type, subtype, protected) combination produces. */
  function KeyDecode(k: int): (r: Option<KeyParts>)
    ensures r.Some? ==> r.value.ftype < |TypeFactors| && r.value.subtype < 16
    ensures r.Some? ==> KeyOf(r.value.ftype, r.value.subtype, r.value.protected) == k
  {
    var protected := k >= ProtectedFactor;
    var base := if protected then k - ProtectedFactor else k;
    if TypeFactors[ManagementType] <= base < TypeFactors[ManagementType] + 16 then
      Some(KeyParts(ManagementType, base - TypeFactors[ManagementType], protected))
    else if TypeFactors[ControlType] <= base < TypeFactors[ControlType] + 16 then
      Some(KeyParts(ControlType, base - TypeFactors[ControlType], protected))
    else if TypeFactors[DataType] <= base < TypeFactors[DataType] + 16 then
      Some(KeyParts(DataType, base - TypeFactors[DataType], protected))
    else
      None
  }

  /** `KeyDecode` undoes `KeyOf` on every 4-bit subtype. */
  lemma KeyRoundTrip(p: KeyParts)
    requires p.ftype < |TypeFactors| && p.subtype < 16
    ensures KeyDecode(KeyOf(p.ftype, p.subtype, p.protected)) == Some(p)
  {
  }

  /** No two (type, subtype, protected) combinations share a key. */
  lemma KeyInjective(a: KeyParts, b: KeyParts)
    requires a.ftype < |TypeFactors| && b.ftype < |TypeFactors|
    requires a.subtype < 16 && b.subtype < 16
    requires KeyOf(a.ftype, a.subtype, a.protected) == KeyOf(b.ftype, b.subtype, b.protected)
    ensures a == b
  {
    KeyRoundTrip(a);
    KeyRoundTrip(b);
  }

  /** The key `_dissect` computes for a frame-control word. `TYPE_FACTORS`
      has three entries, so the reserved type 3 indexes past its end: that
      case is `None`, and it is the only one. */
  function FrameKey(fc: Word): (r: Option<nat>)
    ensures r.None? <==> GetType(fc) == 3
    ensures r.Some? ==> KeyDecode(r.value) == Some(KeyParts(GetType(fc) as nat, GetSubtype(fc) as nat, GetProtected(fc) == 1))
  {
    var t := GetType(fc);
    if t == 3 then
      None
    else
      var p := KeyParts(t as nat, GetSubtype(fc) as nat, GetProtected(fc) == 1);
      KeyRoundTrip(p);
      Some(KeyOf(p.ftype, p.subtype, p.protected))
  }

  /** A beacon (type 0, subtype 8, unprotected) and a protected QoS-null
      data frame (type 2, subtype 12). */
  lemma FrameKeyExamples()
    ensures FrameKey(0x8000) == Some(24)
    ensures FrameKey(0xC840) == Some(204)
  {
  }
}

=== FILE: frame.dfy ===
/** The top-level decoder: reads the frame-control word, computes the
    dispatch key, looks the body class up in the registry and hands the
    body on; a body class with a `params` list splits its information
    elements from the fixed offset its header ends at
    (pypacker/layer12/ieee80211.py, `IEEE80211._dissect` and the body
    classes' `_dissect`). */
module Frame {
  import opened Wrappers
  import opened Bytes
  import opened FrameControl
  import opened Dispatch
  import opened Bodies
  import opened Registry
  import opened InformationElements

  /** Why the top-level decoder gives up. */
  datatype DissectError =
    /** Fewer than the two octets the frame-control read needs. */
    | ShortHeader
    /** Type 3: `TYPE_FACTORS[3]` raises `IndexError`. */
    | ReservedType

  /** What the top-level decoder fixes about a frame: the frame-control
      word, the dispatch key, the body class the registry gives for it
      (`None` for an unlisted combination) and the body bytes handed on. */
  datatype Dissected = Dissected(framectl: Word, key: nat, handler: Option<Schema>, body: seq<Byte>)

  /** `IEEE80211._dissect` against a handler registry. */
  function Dissect(reg: Handlers, buf: seq<Byte>): (r: Result<Dissected, DissectError>)
    ensures |buf| < 2 <==> r == Failure(ShortHeader)
    ensures |buf| >= 2 ==>
      (r == Failure(ReservedType) <==> GetType(FromBytes(buf[0] as Octet, buf[1] as Octet)) == 3)
    ensures r.Success? ==> r.value.framectl == FromBytes(buf[0] as Octet, buf[1] as Octet)
    ensures r.Success? ==>
      KeyDecode(r.value.key)
      == Some(KeyParts(GetType(r.value.framectl) as nat, GetSubtype(r.value.framectl) as nat,
                       GetProtected(r.value.framectl) == 1))
    ensures r.Success? ==> r.value.handler == Lookup(reg, r.value.key)
    ensures r.Success? && |buf| >= HeaderSize(FrameHeaderLayout) ==> r.value.body == buf[HeaderSize(FrameHeaderLayout)..]
    ensures r.Success? && |buf| < HeaderSize(FrameHeaderLayout) ==> r.value.body == []
  {
    if |buf| < 2 then
      Failure(ShortHeader)
    else
      var fc := FromBytes(buf[0] as Octet, buf[1] as Octet);
      match FrameKey(fc)
      case None => Failure(ReservedType)
      case Some(k) => Success(Dissected(fc, k, Lookup(reg, k), buf[Min(BodyOffset(), |buf|)..]))
  }

  /** The information elements of a body: `None` for a class without a
      `params` list, otherwise the walk over the body from the end of its
      fixed fields on (nothing when the body is shorter than those). */
  function BodyElements(s: Schema, body: seq<Byte>): (r: Option<Result<seq<Element>, ParseError>>)
    ensures r.Some? <==> CarriesElements(s)
    ensures r.Some? && |body| >= HeaderSize(BodyLayout(s)) ==> r.value == Parse(body[HeaderSize(BodyLayout(s))..])
    ensures r.Some? && |body| < HeaderSize(BodyLayout(s)) ==> r.value == Success([])
  {
    match ElementsStart(s)
    case None => None
    case Some(start) =>
      ElementsStartLayout(s);
      Some(Parse(body[Min(start, |body|)..]))
  }

  /** A beacon with an SSID element "ABC": key 24 (which the registry maps
      to `Beacon`) and a body of everything after the first four octets. */
  lemma BeaconExample(reg: Handlers, fixed: seq<Byte>)
    requires |fixed| == 32
    ensures var buf := [0x80, 0x00, 0x00, 0x00] + fixed + [0, 3, 0x41, 0x42, 0x43];
      Dissect(reg, buf) == Success(Dissected(0x8000, 24, Lookup(reg, 24), fixed + [0, 3, 0x41, 0x42, 0x43]))
  {
    var buf: seq<Byte> := [0x80, 0x00, 0x00, 0x00] + fixed + [0, 3, 0x41, 0x42, 0x43];
    assert buf[0] as Octet == 0x80 && buf[1] as Octet == 0x00;
    assert FromBytes(0x80, 0x00) == 0x8000;
    FrameKeyExamples();
    assert buf[4..] == fixed + [0, 3, 0x41, 0x42, 0x43];
  }

  /** The same beacon against the registry the module builds: it reaches
      the `Beacon` class. */
  lemma BeaconDispatched(fixed: seq<Byte>)
    requires |fixed| == 32
    ensures var buf := [0x80, 0x00, 0x00, 0x00] + fixed + [0, 3, 0x41, 0x42, 0x43];
      Dissect(DecoderDict, buf) == Success(Dissected(0x8000, 24, Some(Beacon), fixed + [0, 3, 0x41, 0x42, 0x43]))
  {
    BeaconExample(DecoderDict, fixed);
    DecoderDictPresent();
  }

  /** A protected QoS data frame (control word 0xC840) with an empty body
      dispatches on key 204, whatever the registry. */
  lemma SecuredQosExample(reg: Handlers)
    ensures Dissect(reg, [0xC8, 0x40, 0x00, 0x00]) == Success(Dissected(0xC840, 204, Lookup(reg, 204), []))
  {
    var buf: seq<Byte> := [0xC8, 0x40, 0x00, 0x00];
    assert buf[0] as Octet == 0xC8 && buf[1] as Octet == 0x40;
    assert FromBytes(0xC8, 0x40) == 0xC840;
    FrameKeyExamples();
    assert buf[4..] == [];
  }

  /** Against the registry the module builds, that frame reaches the
      secured twin `DataframeQosSecured`. */
  lemma SecuredQosDispatched()
    ensures Dissect(DecoderDict, [0xC8, 0x40, 0x00, 0x00])
         == Success(Dissected(0xC840, 204, Some(DataframeQosSecured), []))
  {
    SecuredQosExample(DecoderDict);
    DecoderDictPresent();
  }

  /** The beacon body's element list starts after its 32 bytes of fixed
      fields. */
  lemma BeaconElementsExample(fixed: seq<Byte>)
    requires |fixed| == 32
    ensures BodyElements(Beacon, fixed + [0, 3, 0x41, 0x42, 0x43])
         == Some(Success([Element(IE, [0, 3, 0x41, 0x42, 0x43])]))
  {
    var body := fixed + [0, 3, 0x41, 0x42, 0x43];
    assert body[32..] == [0, 3, 0x41, 0x42, 0x43];
    var ssid := Tlv(0, [0x41, 0x42, 0x43]);
    ParseEncoded([ssid]);
    assert [ssid][1..] == [];
    assert EncodeTlv(ssid) == [0, 3, 0x41, 0x42, 0x43];
    assert EncodeTlvs([ssid]) == [0, 3, 0x41, 0x42, 0x43];
    assert SchemaFor(0) == IE;
    assert ElementsOf([ssid]) == [Element(IE, [0, 3, 0x41, 0x42, 0x43])];
  }

  /** A frame of the reserved type 3 stops the decoder, whatever the
      registry. */
  lemma ReservedTypeExample(reg: Handlers)
    ensures Dissect(reg, [0x0c, 0x00]) == Failure(ReservedType)
  {
    var buf: seq<Byte> := [0x0c, 0x00];
    assert buf[0] as Octet == 0x0c && buf[1] as Octet == 0x00;
    assert FromBytes(0x0c, 0x00) == 0x0c00;
    assert GetType(0x0c00) == 3;
  }
}

=== FILE: frame_control.dfy ===
/** The 16-bit frame-control word of an IEEE 802.11 MAC header and the
    mask/shift accessors over it (pypacker/layer12/ieee80211.py).

    The decoder reads the word big-endian, so version, type and subtype sit
    in the high byte and the eight flags in the low byte; the mask table
    below is the decoder's, not the bit numbering of section 9.2.4.1 of
    IEEE Std 802.11-2016.

    The word lives in a Python integer, which is unbounded: a setter given a
    value wider than its field produces bits outside the field, possibly
    above bit 15. The model keeps the word 32 bits wide so that such results
    stay visible; every setter law below is stated for values that fit. */
module FrameControl {

  /** The integer held in the `framectl` attribute. */
  type Word = bv32

  /** One octet of the frame at the bit level: the view of a `Bytes.Byte`
      that the big-endian word assembly works on. */
  type Octet = bv8

  const VersionMask: Word := 0x0300
  const TypeMask: Word := 0x0c00
  const SubtypeMask: Word := 0xf000
  const ToDsMask: Word := 0x0001
  const FromDsMask: Word := 0x0002
  const MoreFragMask: Word := 0x0004
  const RetryMask: Word := 0x0008
  const PwrMgtMask: Word := 0x0010
  const MoreDataMask: Word := 0x0020
  const ProtectedMask: Word := 0x0040
  const OrderMask: Word := 0x0080

  const VersionShift: bv6 := 8
  const TypeShift: bv6 := 10
  const SubtypeShift: bv6 := 12
  const ToDsShift: bv6 := 0
  const FromDsShift: bv6 := 1
  const MoreFragShift: bv6 := 2
  const RetryShift: bv6 := 3
  const PwrMgtShift: bv6 := 4
  const MoreDataShift: bv6 := 5
  const ProtectedShift: bv6 := 6
  const OrderShift: bv6 := 7

  /** The eleven masks, in table order. */
  const Masks: seq<Word> := [
    VersionMask, TypeMask, SubtypeMask,
    ToDsMask, FromDsMask, MoreFragMask, RetryMask,
    PwrMgtMask, MoreDataMask, ProtectedMask, OrderMask
  ]

  /** The masks partition the 16-bit word: they are pairwise disjoint and
      together cover exactly the bits `0xFFFF`. */
  lemma MasksPartitionWord()
    ensures forall i, j :: 0 <= i < j < |Masks| ==> Masks[i] & Masks[j] == 0
    ensures VersionMask | TypeMask | SubtypeMask | ToDsMask | FromDsMask | MoreFragMask
      | RetryMask | PwrMgtMask | MoreDataMask | ProtectedMask | OrderMask == 0xFFFF
  {
  }

  /** Every field of a frame-control word as the getters read it, plus the
      bits above bit 15, which only a setter given a value wider than its
      field can produce. */
  datatype Fields = Fields(
    version: Word, ftype: Word, subtype: Word,
    toDs: Word, fromDs: Word, moreFrag: Word, retry: Word,
    pwrMgt: Word, moreData: Word, protected: Word, order: Word,
    excess: Word)
  {
    /** Each field value fits its width: 2 bits for version and type, 4
        for subtype, 1 for each flag. */
    predicate Fits() {
      && version < 4 && ftype < 4 && subtype < 16
      && toDs < 2 && fromDs < 2 && moreFrag < 2 && retry < 2
      && pwrMgt < 2 && moreData < 2 && protected < 2 && order < 2
    }
  }

  // The `_get_<field>` accessors. Each returns the bits under its mask, moved
  // down to bit 0: the value fits the field, and shifted back into place it
  // is exactly the word's bits under the mask.

  function GetVersion(w: Word): (v: Word)
    ensures v < 4
    ensures v << VersionShift == w & VersionMask
  {
    (w & VersionMask) >> VersionShift
  }

  function GetType(w: Word): (v: Word)
    ensures v < 4
    ensures v << TypeShift == w & TypeMask
  {
    (w & TypeMask) >> TypeShift
  }

  function GetSubtype(w: Word): (v: Word)
    ensures v < 16
    ensures v << SubtypeShift == w & SubtypeMask
  {
    (w & SubtypeMask) >> SubtypeShift
  }

  function GetToDs(w: Word): (v: Word)
    ensures v < 2
    ensures v << ToDsShift == w & ToDsMask
  {
    (w & ToDsMask) >> ToDsShift
  }

  function GetFromDs(w: Word): (v: Word)
    ensures v < 2
    ensures v << FromDsShift == w & FromDsMask
  {
    (w & FromDsMask) >> FromDsShift
  }

  function GetMoreFrag(w: Word): (v: Word)
    ensures v < 2
    ensures v << MoreFragShift == w & MoreFragMask
  {
    (w & MoreFragMask) >> MoreFragShift
  }

  function GetRetry(w: Word): (v: Word)
    ensures v < 2
    ensures v << RetryShift == w & RetryMask
  {
    (w & RetryMask) >> RetryShift
  }

  function GetPwrMgt(w: Word): (v: Word)
    ensures v < 2
    ensures v << PwrMgtShift == w & PwrMgtMask
  {
    (w & PwrMgtMask) >> PwrMgtShift
  }

  function GetMoreData(w: Word): (v: Word)
    ensures v < 2
    ensures v << MoreDataShift == w & MoreDataMask
  {
    (w & MoreDataMask) >> MoreDataShift
  }

  function GetProtected(w: Word): (v: Word)
    ensures v < 2
    ensures v << ProtectedShift == w & ProtectedMask
  {
    (w & ProtectedMask) >> ProtectedShift
  }

  function GetOrder(w: Word): (v: Word)
    ensures v < 2
    ensures v << OrderShift == w & OrderMask
  {
    (w & OrderMask) >> OrderShift
  }

  /** All eleven getters at once. */
  function Decode(w: Word): (d: Fields)
    ensures d.Fits()
  {
    Fields(GetVersion(w), GetType(w), GetSubtype(w),
           GetToDs(w), GetFromDs(w), GetMoreFrag(w), GetRetry(w),
           GetPwrMgt(w), GetMoreData(w), GetProtected(w), GetOrder(w),
           w >> 16)
  }

  /** Builds a word from field values, each shifted into its mask; the
      inverse of `Decode`. */
  function Encode(d: Fields): Word {
    (d.version << VersionShift) | (d.ftype << TypeShift) | (d.subtype << SubtypeShift)
    | (d.toDs << ToDsShift) | (d.fromDs << FromDsShift) | (d.moreFrag << MoreFragShift)
    | (d.retry << RetryShift) | (d.pwrMgt << PwrMgtShift) | (d.moreData << MoreDataShift)
    | (d.protected << ProtectedShift) | (d.order << OrderShift) | (d.excess << 16)
  }

  /** Field values that fit are read back unchanged from the word built of
      them. */
  lemma DecodeEncode(d: Fields)
    requires d.Fits() && d.excess < 0x1_0000
    ensures Decode(Encode(d)) == d
  {
  }

  /** The masks are exhaustive: a word is determined by its eleven field
      values and the bits above them. */
  lemma EncodeDecode(w: Word)
    ensures Encode(Decode(w)) == w
  {
  }

  // The `_set_<field>` accessors: `(val << SHIFT) | (framectl & ~MASK)`.
  // For a value that fits, the new word reads back that value in the field
  // and the old values everywhere else, including the bits above bit 15,
  // so a 16-bit word stays a 16-bit word.

  function SetVersion(w: Word, v: Word): (r: Word)
    ensures v < 4 ==> Decode(r) == Decode(w).(version := v)
  {
    (v << VersionShift) | (w & !VersionMask)
  }

  function SetType(w: Word, v: Word): (r: Word)
    ensures v < 4 ==> Decode(r) == Decode(w).(ftype := v)
  {
    (v << TypeShift) | (w & !TypeMask)
  }

  function SetSubtype(w: Word, v: Word): (r: Word)
    ensures v < 16 ==> Decode(r) == Decode(w).(subtype := v)
  {
    (v << SubtypeShift) | (w & !SubtypeMask)
  }

  function SetToDs(w: Word, v: Word): (r: Word)
    ensures v < 2 ==> Decode(r) == Decode(w).(toDs := v)
  {
    (v << ToDsShift) | (w & !ToDsMask)
  }

  function SetFromDs(w: Word, v: Word): (r: Word)
    ensures v < 2 ==> Decode(r) == Decode(w).(fromDs := v)
  {
    (v << FromDsShift) | (w & !FromDsMask)
  }

  function SetMoreFrag(w: Word, v: Word): (r: Word)
    ensures v < 2 ==> Decode(r) == Decode(w).(moreFrag := v)
  {
    (v << MoreFragShift) | (w & !MoreFragMask)
  }

  function SetRetry(w: Word, v: Word): (r: Word)
    ensures v < 2 ==> Decode(r) == Decode(w).(retry := v)
  {
    (v << RetryShift) | (w & !RetryMask)
  }

  function SetPwrMgt(w: Word, v: Word): (r: Word)
    ensures v < 2 ==> Decode(r) == Decode(w).(pwrMgt := v)
  {
    (v << PwrMgtShift) | (w & !PwrMgtMask)
  }

  function SetMoreData(w: Word, v: Word): (r: Word)
    ensures v < 2 ==> Decode(r) == Decode(w).(moreData := v)
  {
    (v << MoreDataShift) | (w & !MoreDataMask)
  }

  function SetProtected(w: Word, v: Word): (r: Word)
    ensures v < 2 ==> Decode(r) == Decode(w).(protected := v)
  {
    (v << ProtectedShift) | (w & !ProtectedMask)
  }

  function SetOrder(w: Word, v: Word): (r: Word)
    ensures v < 2 ==> Decode(r) == Decode(w).(order := v)
  {
    (v << OrderShift) | (w & !OrderMask)
  }

  /** Storing the value just read leaves the word as it was, for every
      setter and every word. */
  lemma SetGetIdentity(w: Word)
    ensures SetVersion(w, GetVersion(w)) == w
    ensures SetType(w, GetType(w)) == w
    ensures SetSubtype(w, GetSubtype(w)) == w
    ensures SetToDs(w, GetToDs(w)) == w
    ensures SetFromDs(w, GetFromDs(w)) == w
    ensures SetMoreFrag(w, GetMoreFrag(w)) == w
    ensures SetRetry(w, GetRetry(w)) == w
    ensures SetPwrMgt(w, GetPwrMgt(w)) == w
    ensures SetMoreData(w, GetMoreData(w)) == w
    ensures SetProtected(w, GetProtected(w)) == w
    ensures SetOrder(w, GetOrder(w)) == w
  {
    EncodeDecode(w);
    EncodeDecode(SetVersion(w, GetVersion(w)));
    EncodeDecode(SetType(w, GetType(w)));
    EncodeDecode(SetSubtype(w, GetSubtype(w)));
    EncodeDecode(SetToDs(w, GetToDs(w)));
    EncodeDecode(SetFromDs(w, GetFromDs(w)));
    EncodeDecode(SetMoreFrag(w, GetMoreFrag(w)));
    EncodeDecode(SetRetry(w, GetRetry(w)));
    EncodeDecode(SetPwrMgt(w, GetPwrMgt(w)));
    EncodeDecode(SetMoreData(w, GetMoreData(w)));
    EncodeDecode(SetProtected(w, GetProtected(w)));
    EncodeDecode(SetOrder(w, GetOrder(w)));
  }

  /** A word is a 16-bit word exactly when it has no excess bits. */
  lemma SixteenBitWord(w: Word)
    ensures w < 0x1_0000 <==> Decode(w).excess == 0
  {
  }

  /** Each setter law above keeps the bits above bit 15, so a setter given
      a value that fits its field keeps a 16-bit word within 16 bits: the
      result still fits the `H` header field. */
  lemma SetterKeepsSixteenBits(w: Word, r: Word)
    requires w < 0x1_0000 && Decode(r).excess == Decode(w).excess
    ensures r < 0x1_0000
  {
    SixteenBitWord(w);
    SixteenBitWord(r);
  }

  /** Every setter given a value that fits its field keeps a 16-bit word
      within 16 bits. */
  lemma SettersKeepSixteenBits(w: Word, v: Word)
    requires w < 0x1_0000
    ensures v < 4 ==> SetVersion(w, v) < 0x1_0000 && SetType(w, v) < 0x1_0000
    ensures v < 16 ==> SetSubtype(w, v) < 0x1_0000
    ensures v < 2 ==>
      && SetToDs(w, v) < 0x1_0000 && SetFromDs(w, v) < 0x1_0000
      && SetMoreFrag(w, v) < 0x1_0000 && SetRetry(w, v) < 0x1_0000
      && SetPwrMgt(w, v) < 0x1_0000 && SetMoreData(w, v) < 0x1_0000
      && SetProtected(w, v) < 0x1_0000 && SetOrder(w, v) < 0x1_0000
  {
    if v < 4 {
      SetterKeepsSixteenBits(w, SetVersion(w, v));
      SetterKeepsSixteenBits(w, SetType(w, v));
    }
    if v < 16 {
      SetterKeepsSixteenBits(w, SetSubtype(w, v));
    }
    if v < 2 {
      SetterKeepsSixteenBits(w, SetToDs(w, v));
      SetterKeepsSixteenBits(w, SetFromDs(w, v));
      SetterKeepsSixteenBits(w, SetMoreFrag(w, v));
      SetterKeepsSixteenBits(w, SetRetry(w, v));
      SetterKeepsSixteenBits(w, SetPwrMgt(w, v));
      SetterKeepsSixteenBits(w, SetMoreData(w, v));
      SetterKeepsSixteenBits(w, SetProtected(w, v));
      SetterKeepsSixteenBits(w, SetOrder(w, v));
    }
  }

  /** Big-endian read of the first two bytes (`struct.unpack(">H", ...)`):
      version, type and subtype come from the first byte, the flags from
      the second. */
  function FromBytes(hi: Octet, lo: Octet): (w: Word)
    ensures Decode(w).excess == 0
    ensures GetSubtype(w) == (hi >> 4) as Word
    ensures GetType(w) == ((hi >> 2) & 3) as Word
    ensures GetVersion(w) == (hi & 3) as Word
    ensures GetToDs(w) == (lo & 1) as Word
    ensures GetFromDs(w) == ((lo >> 1) & 1) as Word
    ensures GetMoreFrag(w) == ((lo >> 2) & 1) as Word
    ensures GetRetry(w) == ((lo >> 3) & 1) as Word
    ensures GetPwrMgt(w) == ((lo >> 4) & 1) as Word
    ensures GetMoreData(w) == ((lo >> 5) & 1) as Word
    ensures GetProtected(w) == ((lo >> 6) & 1) as Word
    ensures GetOrder(w) == (lo >> 7) as Word
  {
    ((hi as Word) << 8) | (lo as Word)
  }
}

=== FILE: information_elements.dfy ===
/** The information-element list at the end of a management body and the
    loop that splits it (pypacker/layer12/ieee80211.py, `_unpack_ies` and
    `ie_decoder`).

    Each element is an id octet, a length octet and that many payload
    octets, as in section 9.4.2 of IEEE Std 802.11-2016. The decoder keeps
    each element as the slice it occupies together with the class chosen
    for its id; the fields inside an element are left to the packet base
    class and are not part of this model. */
module InformationElements {
  import opened Wrappers
  import opened Bytes

  /** The element classes: the generic `IE` and the five with a fixed
      layout of their own. */
  datatype IeSchema = IE | FH | DS | CF | TIM | IBSS

  /** `ie_decoder`: SSID (0), rates (1), FH (2), DS (3), CF (4), TIM (5),
      IBSS (6), HT capabilities (45), ESR (50) and HT information (61). */
  const IeDecoder: map<nat, IeSchema> := map[
    0 := IE, 1 := IE, 2 := FH, 3 := DS, 4 := CF, 5 := TIM, 6 := IBSS,
    45 := IE, 50 := IE, 61 := IE]

  /** The class the loop picks for an id: the table's entry, and the
      generic `IE` for an id the table does not list. Only ids 2 to 6 get a
      class of their own. */
  function SchemaFor(id: Byte): (r: IeSchema)
    ensures r != IE <==> 2 <= id <= 6
    ensures 2 <= id <= 6 ==> r == [FH, DS, CF, TIM, IBSS][id - 2]
  {
    if id as nat in IeDecoder then IeDecoder[id as nat] else IE
  }

  /** One emitted element: its class and the bytes `buf[off:off + 2 + len]`. */
  datatype Element = Element(schema: IeSchema, raw: seq<Byte>)

  /** Reading the length octet of an id octet that ends the buffer raises
      `IndexError` in the loop. */
  datatype ParseError = MissingLengthByte

  /** The element's bytes in order. */
  function Concat(es: seq<Element>): seq<Byte>
  {
    if |es| == 0 then [] else es[0].raw + Concat(es[1..])
  }

  /** An element starts with its id and length octets and carries the
      class its id selects. */
  predicate WellTagged(e: Element)
  {
    |e.raw| >= 2 && e.schema == SchemaFor(e.raw[0])
  }

  /** An element holds all the payload its length octet declares. */
  predicate Complete(e: Element)
  {
    |e.raw| >= 2 && |e.raw| == 2 + e.raw[1] as nat
  }

  /** `ies`, grown by a parse of what follows them. */
  function Prepend(es: seq<Element>, r: Result<seq<Element>, ParseError>): Result<seq<Element>, ParseError>
  {
    if r.Success? then Success(es + r.value) else r
  }

  /** The loop of `_unpack_ies`, on what is left of the buffer at the
      current offset: it stops at the end, fails on a lone id octet, and
      otherwise emits the slice of `2 + len` bytes, cut short by the end of
      the buffer, and carries on after it. */
  function Parse(buf: seq<Byte>): Result<seq<Element>, ParseError>
  {
    if |buf| == 0 then
      Success([])
    else if |buf| == 1 then
      Failure(MissingLengthByte)
    else
      var next := 2 + buf[1] as nat;
      var e := Element(SchemaFor(buf[0]), buf[..Min(next, |buf|)]);
      if next >= |buf| then Success([e]) else Prepend([e], Parse(buf[next..]))
  }

  /** `_unpack_ies(buf)` never reads past the end: the element slices,
      in order, are exactly the buffer. */
  lemma {:induction false} ParseTiles(buf: seq<Byte>)
    requires Parse(buf).Success?
    ensures Concat(Parse(buf).value) == buf
  {
    if |buf| >= 2 {
      var next := 2 + buf[1] as nat;
      var es := Parse(buf).value;
      if next < |buf| {
        ParseTiles(buf[next..]);
        assert es == [es[0]] + Parse(buf[next..]).value;
        assert buf == buf[..next] + buf[next..];
      } else {
        assert Concat(es) == es[0].raw + Concat([]);
      }
    }
  }

  /** Every emitted element starts with its id and length octets and has
      the class its id selects. */
  lemma {:induction false} ParseTagged(buf: seq<Byte>)
    requires Parse(buf).Success?
    ensures forall i :: 0 <= i < |Parse(buf).value| ==> WellTagged(Parse(buf).value[i])
  {
    if |buf| >= 2 && 2 + buf[1] as nat < |buf| {
      var es := Parse(buf).value;
      var rest := Parse(buf[2 + buf[1] as nat..]).value;
      ParseTagged(buf[2 + buf[1] as nat..]);
      assert forall i :: 1 <= i < |es| ==> es[i] == rest[i - 1];
    }
  }

  /** Every element but the last holds its whole payload. */
  lemma {:induction false} ParseCompleteButLast(buf: seq<Byte>)
    requires Parse(buf).Success?
    ensures forall i :: 0 <= i < |Parse(buf).value| - 1 ==> Complete(Parse(buf).value[i])
  {
    if |buf| >= 2 && 2 + buf[1] as nat < |buf| {
      var es := Parse(buf).value;
      var rest := Parse(buf[2 + buf[1] as nat..]).value;
      ParseCompleteButLast(buf[2 + buf[1] as nat..]);
      assert forall i :: 1 <= i < |es| ==> es[i] == rest[i - 1];
    }
  }

  /** Growing the list in two steps is growing it once. */
  lemma PrependPrepend(a: seq<Element>, b: seq<Element>, r: Result<seq<Element>, ParseError>)
    ensures Prepend(a, Prepend(b, r)) == Prepend(a + b, r)
  {
    if r.Success? {
      assert a + (b + r.value) == (a + b) + r.value;
    }
  }

  /** One step of `Parse`, with the cut-short case folded in. */
  lemma ParseUnfold(s: seq<Byte>)
    requires |s| >= 2
    ensures var n := Min(2 + s[1] as nat, |s|);
      Parse(s) == Prepend([Element(SchemaFor(s[0]), s[..n])], Parse(s[n..]))
  {
    if 2 + s[1] as nat >= |s| {
      assert s[|s|..] == [];
      var e := Element(SchemaFor(s[0]), s[..|s|]);
      assert [e] + [] == [e];
    }
  }

  /** `off + 2 + dlen`: where the loop goes after the element at `off`. */
  function NextOffset(buf: seq<Byte>, off: nat): nat
    requires off + 1 < |buf|
  {
    off + 2 + buf[off + 1] as nat
  }

  /** `parser(buf[off:off + 2 + dlen])`: the element the loop emits at `off`. */
  function ElementAt(buf: seq<Byte>, off: nat): Element
    requires off + 1 < |buf|
  {
    Element(SchemaFor(buf[off]), buf[off..Min(NextOffset(buf, off), |buf|)])
  }

  /** What is left of the buffer at an offset the loop may overshoot. */
  function Remaining(buf: seq<Byte>, off: nat): seq<Byte>
  {
    buf[Min(off, |buf|)..]
  }

  /** One pass of the offset loop, stated on the rest of the buffer. */
  lemma ParseAt(buf: seq<Byte>, off: nat)
    requires off + 1 < |buf|
    ensures Parse(Remaining(buf, off)) == Prepend([ElementAt(buf, off)], Parse(Remaining(buf, NextOffset(buf, off))))
  {
    var rest := buf[off..];
    assert Remaining(buf, off) == rest;
    var n := Min(2 + rest[1] as nat, |rest|);
    var m := Min(NextOffset(buf, off), |buf|);
    assert m == off + n;
    assert rest[..n] == buf[off..m];
    assert rest[n..] == Remaining(buf, NextOffset(buf, off));
    assert Parse(rest) == Prepend([Element(SchemaFor(rest[0]), rest[..n])], Parse(rest[n..])) by {
      ParseUnfold(rest);
    }
    assert rest[0] == buf[off];
  }

  /** One pass of the loop keeps its invariant: the elements so far,
      followed by the walk over the rest, are the walk over the buffer. */
  lemma LoopStep(buf: seq<Byte>, ies: seq<Element>, off: nat)
    requires off + 1 < |buf|
    requires Parse(buf) == Prepend(ies, Parse(Remaining(buf, off)))
    ensures Parse(buf) == Prepend(ies + [ElementAt(buf, off)], Parse(Remaining(buf, NextOffset(buf, off))))
  {
    var later := Parse(Remaining(buf, NextOffset(buf, off)));
    ParseAt(buf, off);
    PrependPrepend(ies, [ElementAt(buf, off)], later);
  }

  /** Where the loop stops after the element that started at `start`: at
      the end exactly when that element was whole. */
  lemma StopAfter(buf: seq<Byte>, start: nat)
    requires start + 1 < |buf| <= NextOffset(buf, start)
    ensures NextOffset(buf, start) == |buf| <==> Complete(ElementAt(buf, start))
  {
    assert ElementAt(buf, start).raw[1] == buf[start + 1];
  }

  /** `_unpack_ies` as written: the offset loop over the whole buffer. It
      returns what `Parse` describes, together with the offset the loop
      stopped at: one short of the end when the length octet is missing,
      otherwise at or past the end, exactly at the end when the last
      element is whole and past it when the last element was cut short. */
  method UnpackIes(buf: seq<Byte>) returns (r: Result<seq<Element>, ParseError>, stop: nat)
    ensures r == Parse(buf)
    ensures r.Failure? ==> stop + 1 == |buf|
    ensures r.Success? ==> stop >= |buf|
    ensures r.Success? && |r.value| > 0 ==> (stop == |buf| <==> Complete(r.value[|r.value| - 1]))
  {
    var ies: seq<Element> := [];
    var off: nat := 0;
    ghost var lastStart: nat := 0;
    assert Remaining(buf, off) == buf;
    assert Prepend(ies, Parse(buf)) == Parse(buf) by {
      if Parse(buf).Success? {
        assert ies + Parse(buf).value == Parse(buf).value;
      }
    }
    while off < |buf|
      invariant Parse(buf) == Prepend(ies, Parse(Remaining(buf, off)))
      invariant |ies| > 0 ==> lastStart + 1 < |buf| && off == NextOffset(buf, lastStart)
      invariant |ies| > 0 ==> ies[|ies| - 1] == ElementAt(buf, lastStart)
      decreases |buf| - off
    {
      if off + 1 == |buf| {
        assert Parse(Remaining(buf, off)) == Failure(MissingLengthByte);
        return Failure(MissingLengthByte), off;
      }
      LoopStep(buf, ies, off);
      ies := ies + [ElementAt(buf, off)];
      lastStart := off;
      off := NextOffset(buf, off);
    }
    assert Remaining(buf, off) == [];
    assert ies + [] == ies;
    if |ies| > 0 {
      StopAfter(buf, lastStart);
    }
    return Success(ies), off;
  }

  /** An id, length and payload triple, as a sender lays it out. */
  datatype Tlv = Tlv(id: Byte, payload: seq<Byte>)

  predicate ValidTlv(x: Tlv)
  {
    |x.payload| < 256
  }

  function EncodeTlv(x: Tlv): (b: seq<Byte>)
    requires ValidTlv(x)
  {
    [x.id, |x.payload| as Byte] + x.payload
  }

  function EncodeTlvs(xs: seq<Tlv>): seq<Byte>
    requires forall i :: 0 <= i < |xs| ==> ValidTlv(xs[i])
  {
    if |xs| == 0 then [] else EncodeTlv(xs[0]) + EncodeTlvs(xs[1..])
  }

  /** The elements the decoder should produce for a laid-out sequence. */
  function ElementsOf(xs: seq<Tlv>): seq<Element>
    requires forall i :: 0 <= i < |xs| ==> ValidTlv(xs[i])
  {
    if |xs| == 0 then [] else [Element(SchemaFor(xs[0].id), EncodeTlv(xs[0]))] + ElementsOf(xs[1..])
  }

  /** The walk over one laid-out element followed by a tail. */
  lemma ParseHead(x: Tlv, tail: seq<Byte>)
    requires ValidTlv(x)
    ensures Parse(EncodeTlv(x) + tail)
         == Prepend([Element(SchemaFor(x.id), EncodeTlv(x))], Parse(tail))
  {
    var head := EncodeTlv(x);
    var buf := head + tail;
    assert buf[0] == x.id && buf[1] as nat == |x.payload|;
    assert buf[..Min(|head|, |buf|)] == head;
    if |tail| == 0 {
      assert [Element(SchemaFor(x.id), head)] + [] == [Element(SchemaFor(x.id), head)];
    } else {
      assert buf[|head|..] == tail;
    }
  }

  /** Laid-out elements in front of any tail are emitted whole, and the
      walk carries on at the tail. */
  lemma {:induction false} ParseEncodedPrefix(xs: seq<Tlv>, tail: seq<Byte>)
    requires forall i :: 0 <= i < |xs| ==> ValidTlv(xs[i])
    ensures Parse(EncodeTlvs(xs) + tail) == Prepend(ElementsOf(xs), Parse(tail))
  {
    if |xs| == 0 {
      assert EncodeTlvs(xs) + tail == tail;
      if Parse(tail).Success? {
        assert ElementsOf(xs) + Parse(tail).value == Parse(tail).value;
      }
    } else {
      var x := xs[0];
      var rest := EncodeTlvs(xs[1..]) + tail;
      assert EncodeTlvs(xs) + tail == EncodeTlv(x) + rest;
      ParseHead(x, rest);
      ParseEncodedPrefix(xs[1..], tail);
      var r := Parse(tail);
      if r.Success? {
        assert ElementsOf(xs) + r.value
            == [Element(SchemaFor(x.id), EncodeTlv(x))] + (ElementsOf(xs[1..]) + r.value);
      }
    }
  }

  /** The expected elements line up one-to-one with the laid-out ones:
      element i is the i-th id with its whole payload, and is complete. */
  lemma {:induction false} ElementsOfShape(xs: seq<Tlv>)
    requires forall i :: 0 <= i < |xs| ==> ValidTlv(xs[i])
    ensures |ElementsOf(xs)| == |xs|
    ensures forall i :: 0 <= i < |xs| ==>
      && ElementsOf(xs)[i].raw == [xs[i].id, |xs[i].payload| as Byte] + xs[i].payload
      && Complete(ElementsOf(xs)[i])
  {
    if |xs| > 0 {
      ElementsOfShape(xs[1..]);
      forall i | 0 < i < |xs|
        ensures ElementsOf(xs)[i] == ElementsOf(xs[1..])[i - 1]
      {
      }
    }
  }

  /** A buffer that is exactly N laid-out elements yields exactly those N
      elements, each complete. */
  lemma ParseEncoded(xs: seq<Tlv>)
    requires forall i :: 0 <= i < |xs| ==> ValidTlv(xs[i])
    ensures Parse(EncodeTlvs(xs)) == Success(ElementsOf(xs))
    ensures |ElementsOf(xs)| == |xs|
    ensures forall i :: 0 <= i < |xs| ==>
      && ElementsOf(xs)[i].raw == [xs[i].id, |xs[i].payload| as Byte] + xs[i].payload
      && Complete(ElementsOf(xs)[i])
  {
    ElementsOfShape(xs);
    ParseEncodedPrefix(xs, []);
    assert EncodeTlvs(xs) + [] == EncodeTlvs(xs);
    assert ElementsOf(xs) + [] == ElementsOf(xs);
  }

  /** A lone id octet after whole elements fails when its length octet is
      read. */
  lemma TrailingIdFails(xs: seq<Tlv>, id: Byte)
    requires forall i :: 0 <= i < |xs| ==> ValidTlv(xs[i])
    ensures Parse(EncodeTlvs(xs) + [id]) == Failure(MissingLengthByte)
  {
    ParseEncodedPrefix(xs, [id]);
  }

  /** A last element whose length octet overruns the buffer is still
      emitted, holding only the bytes that are there, and nothing is read
      past the end. */
  lemma OverrunKeptShort(xs: seq<Tlv>, id: Byte, len: Byte, payload: seq<Byte>)
    requires forall i :: 0 <= i < |xs| ==> ValidTlv(xs[i])
    requires |payload| < len as nat
    ensures Parse(EncodeTlvs(xs) + [id, len] + payload)
         == Success(ElementsOf(xs) + [Element(SchemaFor(id), [id, len] + payload)])
    ensures !Complete(Element(SchemaFor(id), [id, len] + payload))
  {
    var tail := [id, len] + payload;
    assert EncodeTlvs(xs) + [id, len] + payload == EncodeTlvs(xs) + tail;
    ParseEncodedPrefix(xs, tail);
    assert tail[..Min(2 + len as nat, |tail|)] == tail;
  }

  /** An SSID element "ABC" followed by a rates element. */
  lemma ParseExample()
    ensures Parse([0, 3, 0x41, 0x42, 0x43, 1, 2, 0x82, 0x84])
         == Success([Element(IE, [0, 3, 0x41, 0x42, 0x43]), Element(IE, [1, 2, 0x82, 0x84])])
  {
    var ssid, rates := Tlv(0, [0x41, 0x42, 0x43]), Tlv(1, [0x82, 0x84]);
    var xs := [ssid, rates];
    ParseEncoded(xs);
    assert EncodeTlv(ssid) == [0, 3, 0x41, 0x42, 0x43];
    assert EncodeTlv(rates) == [1, 2, 0x82, 0x84];
    assert xs[1..] == [rates] && [rates][1..] == [];
    assert EncodeTlvs([rates]) == EncodeTlv(rates);
    assert EncodeTlvs(xs) == [0, 3, 0x41, 0x42, 0x43, 1, 2, 0x82, 0x84];
    assert ElementsOf([rates]) == [Element(IE, [1, 2, 0x82, 0x84])];
    assert ElementsOf(xs) == [Element(IE, [0, 3, 0x41, 0x42, 0x43])] + ElementsOf([rates]);
    assert ElementsOf(xs) == [Element(IE, [0, 3, 0x41, 0x42, 0x43]), Element(IE, [1, 2, 0x82, 0x84])];
    assert Parse([0, 3, 0x41, 0x42, 0x43, 1, 2, 0x82, 0x84]) == Success(ElementsOf(xs));
  }
}

=== FILE: registry.dfy ===
/** The handler registry: the three per-type decoder dicts and the loop
    that folds them into one key-to-decoder map
    (pypacker/layer12/ieee80211.py, `m_decoder`, `c_decoder`, `d_decoder`
    and the `decoder_dict_complete` loop at the end of the file). */
module Registry {
  import opened Wrappers
  import opened Dispatch
  import opened Bodies

  /** One `subtype: class` pair of a decoder dict. */
  datatype Entry = Entry(subtype: nat, schema: Schema)

  /** A decoder dict, in its literal (iteration) order. */
  type Table = seq<Entry>

  /** The registry the frame decoder consults: dispatch key to body class. */
  type Handlers = map<int, Schema>

  /** `m_decoder`; unlisted subtypes, such as ATIM (9), have no entry. */
  const ManagementTable: Table := [
    Entry(8, Beacon), Entry(0, AssocReq), Entry(1, AssocResp), Entry(10, Disassoc),
    Entry(2, ReassocReq), Entry(3, AssocResp), Entry(11, Auth), Entry(4, ProbeReq),
    Entry(5, ProbeResp), Entry(12, Deauth)]

  /** `c_decoder`; unlisted subtypes, such as 0-7, PS-Poll (10) and the
      CF-End pair (14, 15), have no entry. */
  const ControlTable: Table := [
    Entry(11, RTS), Entry(12, CTS), Entry(13, ACK), Entry(8, BlockAckReq), Entry(9, BlockAck)]

  /** `d_decoder`; the unlisted subtypes 13 and 15 have no entry. */
  const DataTable: Table := [
    Entry(0, Dataframe), Entry(1, Dataframe), Entry(2, Dataframe), Entry(3, Dataframe),
    Entry(4, Dataframe), Entry(5, Dataframe), Entry(6, Dataframe), Entry(7, Dataframe),
    Entry(8, DataframeQos), Entry(9, DataframeQos), Entry(10, DataframeQos),
    Entry(11, DataframeQos), Entry(12, DataframeQos), Entry(14, DataframeQos)]

  /** `dicts`: the position in the list is the frame type. */
  const Tables: seq<Table> := [ManagementTable, ControlTable, DataTable]

  /** The decoder a key selects, if the registry has one. */
  function Lookup(reg: Handlers, k: int): Option<Schema>
  {
    if k in reg then Some(reg[k]) else None
  }

  /** The class a table gives a subtype: its first entry for it. */
  function Find(t: Table, subtype: nat): Option<Schema>
  {
    if |t| == 0 then None
    else if t[0].subtype == subtype then Some(t[0].schema)
    else Find(t[1..], subtype)
  }

  /** No subtype is listed twice, as in a dict. */
  predicate Distinct(t: Table)
  {
    forall i, j :: 0 <= i < j < |t| ==> t[i].subtype != t[j].subtype
  }

  /** A decoder dict keyed by 4-bit subtypes. */
  predicate WellFormedTable(t: Table)
  {
    (forall i :: 0 <= i < |t| ==> t[i].subtype < 16) && Distinct(t)
  }

  predicate WellFormedTables(tables: seq<Table>)
  {
    |tables| <= |TypeFactors| && forall i :: 0 <= i < |tables| ==> WellFormedTable(tables[i])
  }

  /** The class a protected data frame gets in place of a plain data
      class; only `Dataframe` and `DataframeQos` have one. */
  function SecuredVariant(s: Schema): (r: Option<Schema>)
    ensures r.Some? <==> s == Dataframe || s == DataframeQos
    ensures r == Some(DataframeSecured) <==> s == Dataframe
    ensures r == Some(DataframeQosSecured) <==> s == DataframeQos
  {
    match s
    case Dataframe => Some(DataframeSecured)
    case DataframeQos => Some(DataframeQosSecured)
    case _ => None
  }

  /** One pass of the inner loop: the entry goes to its key, and in the
      data table a plain data class also writes its secured twin 128
      higher. */
  function Store(reg: Handlers, pos: nat, e: Entry): Handlers
    requires pos < |TypeFactors|
  {
    var plain := reg[KeyOf(pos, e.subtype, false) := e.schema];
    if pos == DataType && SecuredVariant(e.schema).Some? then
      plain[KeyOf(pos, e.subtype, true) := SecuredVariant(e.schema).value]
    else
      plain
  }

  /** The inner loop over one dict, in iteration order. */
  function StoreTable(reg: Handlers, pos: nat, t: Table): Handlers
    requires pos < |TypeFactors|
    decreases |t|
  {
    if |t| == 0 then reg else StoreTable(Store(reg, pos, t[0]), pos, t[1..])
  }

  /** The outer loop over `dicts`, starting from an empty dict. */
  function Build(tables: seq<Table>): Handlers
    requires |tables| <= |TypeFactors|
  {
    if |tables| == 0 then map[]
    else StoreTable(Build(tables[..|tables| - 1]), |tables| - 1, tables[|tables| - 1])
  }

  /** `decoder_dict_complete`, handed to the packet base as the frame
      decoder's handler table. */
  const DecoderDict: Handlers := Build(Tables)

  /** Independent description of what the table at type position `pos`
      contributes at key `k`: decode the key; its type must be `pos`, its
      subtype must be listed, and a protected key only exists for a data
      class with a secured twin. */
  function TableEntryAt(pos: nat, t: Table, k: int): Option<Schema>
  {
    match KeyDecode(k)
    case None => None
    case Some(p) =>
      if p.ftype != pos then None
      else
        match Find(t, p.subtype)
        case None => None
        case Some(schema) =>
          if !p.protected then Some(schema)
          else if pos == DataType then SecuredVariant(schema)
          else None
  }

  /** Independent description of the whole registry. */
  function Expected(tables: seq<Table>, k: int): Option<Schema>
  {
    match KeyDecode(k)
    case None => None
    case Some(p) => if p.ftype < |tables| then TableEntryAt(p.ftype, tables[p.ftype], k) else None
  }

  /** A one-entry table gives its own subtype and nothing else. */
  lemma FindSingle(e: Entry, subtype: nat)
    ensures Find([e], subtype) == if subtype == e.subtype then Some(e.schema) else None
  {
    assert [e][1..] == [];
  }

  /** `Find` comes back empty exactly when no entry has the subtype. */
  lemma {:induction false} FindNone(t: Table, subtype: nat)
    ensures Find(t, subtype).None? <==> forall i :: 0 <= i < |t| ==> t[i].subtype != subtype
  {
    if |t| > 0 {
      FindNone(t[1..], subtype);
      assert forall i :: 1 <= i < |t| ==> t[i] == t[1..][i - 1];
    }
  }

  /** The tail of a dict is a dict. */
  lemma TailWellFormed(t: Table)
    requires |t| > 0 && WellFormedTable(t)
    ensures WellFormedTable(t[1..])
    ensures Find(t[1..], t[0].subtype).None?
  {
    assert forall i :: 0 <= i < |t[1..]| ==> t[1..][i] == t[i + 1];
    FindNone(t[1..], t[0].subtype);
  }

  /** One store overrides exactly the keys its entry describes. */
  lemma StoreSpec(reg: Handlers, pos: nat, e: Entry, k: int)
    requires pos < |TypeFactors| && e.subtype < 16
    ensures Lookup(Store(reg, pos, e), k)
         == if TableEntryAt(pos, [e], k).Some? then TableEntryAt(pos, [e], k) else Lookup(reg, k)
  {
    KeyRoundTrip(KeyParts(pos, e.subtype, false));
    KeyRoundTrip(KeyParts(pos, e.subtype, true));
    match KeyDecode(k)
    case None =>
    case Some(p) =>
      FindSingle(e, p.subtype);
  }

  /** A table whose subtypes are distinct overrides exactly the keys it
      describes, whatever order its entries come in. */
  lemma {:induction false} StoreTableSpec(reg: Handlers, pos: nat, t: Table, k: int)
    requires pos < |TypeFactors| && WellFormedTable(t)
    ensures Lookup(StoreTable(reg, pos, t), k)
         == if TableEntryAt(pos, t, k).Some? then TableEntryAt(pos, t, k) else Lookup(reg, k)
    decreases |t|
  {
    if |t| > 0 {
      var e := t[0];
      TailWellFormed(t);
      StoreSpec(reg, pos, e, k);
      StoreTableSpec(Store(reg, pos, e), pos, t[1..], k);
    }
  }

  /** The folded registry agrees with the independent description at
      every key. */
  lemma {:induction false} BuildSpec(tables: seq<Table>, k: int)
    requires WellFormedTables(tables)
    ensures Lookup(Build(tables), k) == Expected(tables, k)
  {
    if |tables| > 0 {
      var n := |tables| - 1;
      var init := tables[..n];
      assert WellFormedTables(init) by {
        forall i | 0 <= i < |init| ensures WellFormedTable(init[i]) {
          assert init[i] == tables[i];
        }
      }
      BuildSpec(init, k);
      StoreTableSpec(Build(init), n, tables[n], k);
      match KeyDecode(k)
      case None =>
      case Some(p) =>
        if p.ftype < n {
          assert init[p.ftype] == tables[p.ftype];
        }
    }
  }

  /** `Find` returns an entry's class exactly when the entry is in the
      table. */
  lemma {:induction false} FindSpec(t: Table, e: Entry)
    requires Distinct(t)
    ensures Find(t, e.subtype) == Some(e.schema) <==> e in t
  {
    if |t| > 0 {
      assert forall i :: 0 <= i < |t[1..]| ==> t[1..][i] == t[i + 1];
      FindSpec(t[1..], e);
      if t[0].subtype == e.subtype {
        FindNone(t[1..], e.subtype);
      }
      assert t == [t[0]] + t[1..];
    }
  }

  /** Every dict entry `(pos, subtype, class)` is stored at
      `TYPE_FACTORS[pos] + subtype`. */
  lemma EntryStored(tables: seq<Table>, pos: nat, i: nat)
    requires WellFormedTables(tables) && pos < |tables| && i < |tables[pos]|
    ensures Lookup(Build(tables), KeyOf(pos, tables[pos][i].subtype, false)) == Some(tables[pos][i].schema)
  {
    var e := tables[pos][i];
    KeyRoundTrip(KeyParts(pos, e.subtype, false));
    FindSpec(tables[pos], e);
    BuildSpec(tables, KeyOf(pos, e.subtype, false));
  }

  /** A data entry for `Dataframe` or `DataframeQos` also puts
      `DataframeSecured` or `DataframeQosSecured` at its key plus 128. */
  lemma SecuredTwin(tables: seq<Table>, i: nat)
    requires WellFormedTables(tables) && DataType < |tables| && i < |tables[DataType]|
    requires tables[DataType][i].schema in {Dataframe, DataframeQos}
    ensures Lookup(Build(tables), KeyOf(DataType, tables[DataType][i].subtype, true))
         == Some(if tables[DataType][i].schema == Dataframe then DataframeSecured else DataframeQosSecured)
  {
    var e := tables[DataType][i];
    KeyRoundTrip(KeyParts(DataType, e.subtype, true));
    FindSpec(tables[DataType], e);
    BuildSpec(tables, KeyOf(DataType, e.subtype, true));
  }

  /** Every registered key is a well-formed dispatch key, and a key of 128
      or more belongs to the data type and selects a secured class:
      management and control entries never reach 128. */
  lemma RegisteredKeys(tables: seq<Table>, k: int)
    requires WellFormedTables(tables) && k in Build(tables)
    ensures KeyDecode(k).Some?
    ensures k >= ProtectedFactor ==> KeyDecode(k).value.ftype == DataType
    ensures k >= ProtectedFactor ==> Build(tables)[k] in {DataframeSecured, DataframeQosSecured}
  {
    BuildSpec(tables, k);
    var p := KeyDecode(k).value;
    KeyRoundTrip(p);
    var f := Find(tables[p.ftype], p.subtype);
    if f.Some? {
      var e := Entry(p.subtype, f.value);
      FindSpec(tables[p.ftype], e);
    }
  }

  /** Find gives the same answer on any reordering of a dict. */
  lemma FindReordered(t: Table, u: Table, subtype: nat)
    requires Distinct(t) && Distinct(u) && multiset(t) == multiset(u)
    ensures Find(t, subtype) == Find(u, subtype)
  {
    var a, b := Find(t, subtype), Find(u, subtype);
    if a.Some? {
      FindSpec(t, Entry(subtype, a.value));
      FindSpec(u, Entry(subtype, a.value));
      assert Entry(subtype, a.value) in multiset(u);
    } else if b.Some? {
      FindSpec(t, Entry(subtype, b.value));
      FindSpec(u, Entry(subtype, b.value));
      assert Entry(subtype, b.value) in multiset(t);
    }
  }

  /** No two writes of the loop hit the same key, so iterating any dict in
      another order builds the same registry. */
  lemma OrderIndependent(tables: seq<Table>, reordered: seq<Table>)
    requires WellFormedTables(tables) && WellFormedTables(reordered)
    requires |tables| == |reordered|
    requires forall i :: 0 <= i < |tables| ==> multiset(tables[i]) == multiset(reordered[i])
    ensures Build(tables) == Build(reordered)
  {
    forall k | true
      ensures Lookup(Build(tables), k) == Lookup(Build(reordered), k)
    {
      BuildSpec(tables, k);
      BuildSpec(reordered, k);
      match KeyDecode(k)
      case None =>
      case Some(p) =>
        if p.ftype < |tables| {
          FindReordered(tables[p.ftype], reordered[p.ftype], p.subtype);
        }
    }
    var a, b := Build(tables), Build(reordered);
    assert a.Keys == b.Keys by {
      forall k | k in a ensures k in b {
        assert Lookup(a, k).Some?;
      }
      forall k | k in b ensures k in a {
        assert Lookup(b, k).Some?;
      }
    }
    forall k | k in a ensures a[k] == b[k] {
      assert Lookup(a, k) == Some(a[k]);
    }
  }

  lemma ManagementTableWellFormed()
    ensures WellFormedTable(ManagementTable)
  {
  }

  lemma ControlTableWellFormed()
    ensures WellFormedTable(ControlTable)
  {
  }

  lemma DataTableWellFormed()
    ensures WellFormedTable(DataTable)
  {
  }

  /** The literal dicts are well formed. */
  lemma TablesWellFormed()
    ensures WellFormedTables(Tables) && |Tables| == |TypeFactors|
  {
    ManagementTableWellFormed();
    ControlTableWellFormed();
    DataTableWellFormed();
  }

  /** Beacons select `Beacon`; protected QoS-null frames select
      `DataframeQosSecured`. */
  lemma DecoderDictPresent()
    ensures Lookup(DecoderDict, 24) == Some(Beacon)
    ensures Lookup(DecoderDict, 204) == Some(DataframeQosSecured)
  {
    TablesWellFormed();
    EntryStored(Tables, ManagementType, 0);
    SecuredTwin(Tables, 12);
  }

  /** A key whose decoded subtype has no entry in its type's dict selects
      nothing. */
  lemma UnlistedKey(k: int, p: KeyParts)
    requires KeyDecode(k) == Some(p)
    requires forall i :: 0 <= i < |Tables[p.ftype]| ==> Tables[p.ftype][i].subtype != p.subtype
    ensures Lookup(DecoderDict, k) == None
  {
    TablesWellFormed();
    BuildSpec(Tables, k);
    FindNone(Tables[p.ftype], p.subtype);
  }

  /** The same, one subtype at a time. */
  lemma UnlistedSubtype(t: nat, subtype: nat, protected: bool)
    requires t < |TypeFactors| && subtype < 16
    requires forall i :: 0 <= i < |Tables[t]| ==> Tables[t][i].subtype != subtype
    ensures Lookup(DecoderDict, KeyOf(t, subtype, protected)) == None
  {
    KeyRoundTrip(KeyParts(t, subtype, protected));
    UnlistedKey(KeyOf(t, subtype, protected), KeyParts(t, subtype, protected));
  }

  /** ATIM (25), data subtypes 13 and 15 (77, 79) and a protected beacon
      (152) select nothing. */
  lemma DecoderDictAbsent(k: int)
    requires k in {25, 77, 79, 152}
    ensures Lookup(DecoderDict, k) == None
  {
    if k == 25 {
      UnlistedSubtype(ManagementType, 9, false);
    } else if k == 77 {
      UnlistedSubtype(DataType, 13, false);
    } else if k == 79 {
      UnlistedSubtype(DataType, 15, false);
    } else {
      TablesWellFormed();
      BuildSpec(Tables, 152);
    }
  }
}

=== FILE: wrappers.dfy ===
/** Option and Result values used in place of the exceptions and `None`
    returns of the decoder. */
module Wrappers {

  datatype Option<+T> = None | Some(value: T)

  datatype Result<+T, +E> = Success(value: T) | Failure(error: E)
}
